=== FILE: README.md ===
# Pokédex front end: the pure logic of `App`

This project models the logic inside the single React component of a small
Pokédex browser app, stated as immutable Dafny datatypes and pure functions:

- the memoised **visible list**: the cached list of Pokémon narrowed by the
  search box, keeping the entries whose name contains the lower-cased search
  value (`ListFilter`, on top of `Text` for `toLowerCase` and `includes`);
- the **evolution-chain walk** `compileEvolutionNames`, which lists the
  species names along the first-child spine of an `{species, evolves_to}`
  tree, root first (`Evolution`);
- the **chain-id extraction** `url.slice(0, -1).split('/')`, last piece
  (`Url`, with `split`/`join` and their round trips);
- the **detail composition** `fetchPokemonInfo`: details by name, species by
  the canonical name, chain by the extracted id, merged into one record with
  moves and types unwrapped (`Details`);
- the **component state** `{pokemon, searchValue, pokemonDetails,
  isLoading}` and the handlers that update it (`App`). Each handler is
  modelled by the sequence of states its setter calls leave behind.

The three per-Pokémon fetches of `./api` are replaced by a `Gateway`
snapshot (`Api`): three maps, each keyed by the argument its fetch is called
with. The outcome of `fetchAllPokemon` is the `response` parameter of
`App.LoadPokemon`, None when it rejects. A key that is absent means the
fetch rejects; the app treats a
network failure and a missing resource alike, so one case covers both. A
failed fetch turns into `None` all the way up. The same goes for a first
child without `species`, where the source dereferences an absent value and
throws.

Three details of the code worth knowing:
- the id extraction drops the URL's final character whatever it is
  (`Url.EvolutionChainIdWithoutTrailingSlash`);
- the root species is listed only when the root has a `species`;
- a failed list load leaves the list as it was, and since the load runs only at start-up that is empty (`App.FailedInitialLoad`).

## Model

| member | source | states |
|---|---|---|
| Text.Includes | src/App.js:29 | `name.includes(needle)` holds exactly when the needle occurs at some index of the name, so the recursive scan agrees with the reference meaning of substring |
| Text.ToLower | src/App.js:29 | `searchValue.toLowerCase()` keeps the length, leaves no ASCII capital, and leaves an already lower-case string unchanged |
| Text.ToLowerIdempotent | src/App.js:29 | lower-casing twice is the same as lower-casing once |
| Text.ToLowerIgnoresAsciiCase | src/App.js:29 | two strings lower-case to the same string exactly when they have the same length and differ position by position only in the case of ASCII letters |
| ListFilter.KeepMatching | src/App.js:29 | the filter result is an order-preserving subsequence of the list; every kept entry's name contains the needle; each input entry is in the result exactly when its name contains the needle |
| ListFilter.VisibleList | src/App.js:27-33 | an empty search value gives back the cached list unchanged; otherwise the result is an order-preserving subsequence whose members are exactly the entries whose name contains the lower-cased search value, each matching entry kept as many times as it occurs in the list |
| ListFilter.KeepMatchingCounts | src/App.js:29 | the filter keeps every copy of a matching entry and no copy of any other: each entry occurs in the result as often as in the input, or not at all |
| ListFilter.KeepMatchingConcat | src/App.js:29 | the filter works entry by entry: it distributes over concatenation, and a single entry is kept exactly when its name contains the needle |
| ListFilter.CaseFoldingExamples | src/App.js:29 | the search value is lower-cased but names are not: "PIKA" finds "pikachu", "pika" does not find "Pikachu" |
| Url.DropLastChar | src/App.js:69 | `slice(0, -1)` removes exactly the final character, and keeps an empty string empty |
| Url.Split | src/App.js:69 | `split('/')` returns at least one piece and no piece contains the separator |
| Url.JoinSplit | src/App.js:69 | joining the pieces of a split with the separator gives back the original string |
| Url.SplitJoin | src/App.js:69 | splitting the join of separator-free pieces gives back those pieces |
| Url.LastPieceAfterLastSeparator | src/App.js:69-70 | the last piece of a split is the text after the last separator, or the whole string when there is none |
| Url.EvolutionChainId | src/App.js:69-70 | the extracted chain id never contains '/' |
| Url.EvolutionChainIdIsTail | src/App.js:69-70 | the id is the text after the last '/' of the URL with its final character removed, and is a suffix of that shortened URL |
| Url.EvolutionChainIdOfCanonicalUrl | src/App.js:69-70 | a URL `prefix/id/` with a slash-free id yields exactly `id` |
| Url.EvolutionChainIdExample | src/App.js:69-70 | `.../evolution-chain/5/` yields "5" |
| Url.EvolutionChainIdWithoutTrailingSlash | src/App.js:69-70 | the final character is dropped unconditionally: `.../evolution-chain/12` yields "1" |
| Url.LastIndexOf | src/App.js:69-70 | the index returned is a separator with no separator after it, or -1 when the string holds none |
| Evolution.CompileEvolutionNames | src/App.js:45-58 | the recursive `compileEvolutionNames`, returning the names it pushes (None where the source throws); it has no contract of its own and is pinned down by `Evolution.CompileIsSpineWalk` and `Evolution.EvolutionNamesFollowSpine` |
| Evolution.EvolutionNames | src/App.js:60-62 | the root call `compileEvolutionNames(chain)` equals the spine reading: the root species when present, then the species names down the first-child spine, or None when a node on that spine has no species |
| Evolution.CompileIsSpineWalk | src/App.js:45-58 | the recursive walk succeeds exactly when every first-child node has a species, and then yields the starting node's name (root call with species only) followed by the species names of the first-child spine |
| Evolution.SpineIsFirstChildChain | src/App.js:50-56 | the spine starts at `evolves_to[0]` of the root, each node on it is `evolves_to[0]` of the one before, and it ends at the first node without children |
| Evolution.EvolutionNamesFollowSpine | src/App.js:40-62 | the evolution list exists exactly when the spine is named; its length is one for a root species plus the spine depth; it opens with the root species when present; entry k after that is the k-th spine node's species |
| Evolution.TerminalChain | src/App.js:46-50 | a root without children yields `[root]`, or `[]` when the root has no species |
| Evolution.PruneKeepsNames | src/App.js:50-56 | discarding every branch but the first changes nothing: names from other branches are never visited |
| Evolution.DecoyBranchIgnored | src/App.js:45-60 | for A with children [B -> C, D] the list is exactly ["A", "B", "C"] |
| Details.MoveNames | src/App.js:76 | unwrapping moves keeps length and order: element i is `moves[i].move.name` |
| Details.TypeNames | src/App.js:77 | unwrapping types keeps length and order: element i is `types[i].type.name` |
| Details.GetPokemonEvolutions | src/App.js:40-63 | the evolutions of an id exist exactly when the chain with that id exists and its spine is named, and are then the root species (when present) followed by the species names of that chain's first-child spine |
| Details.FetchPokemonInfo | src/App.js:65-79 | the composition succeeds exactly when the details, the species of the canonical name and the chain of the extracted id exist and the chain's spine is named; the record then holds the canonical name, the unwrapped moves and types, and the chain's walk |
| Details.SpeciesKeyedByCanonicalName | src/App.js:66-67 | species entries other than the canonical name's never affect the result |
| Details.ChainKeyedByExtractedId | src/App.js:69-71 | chain entries other than the one with the extracted id never affect the result |
| Details.CanonicalNameExample | src/App.js:66-75 | requesting "25" names the record "pikachu", the name from the details response, and the species is looked up under "pikachu" |
| Details.UnwrapExample | src/App.js:76-77 | `[{move: {name: "tackle"}}]` and `[{type: {name: "normal"}}]` unwrap to ["tackle"] and ["normal"] |
| App.PokemonList | src/App.js:27-33 | the list rendered from the state is the whole cached list when the search value is empty, and always an order-preserving subsequence of it |
| App.LoadPokemon | src/App.js:16-25 | loading sets `isLoading` first, keeps it set until the `finally`, and clears it on success and on failure; on success `setPokemon` changes only the list, to the results, and the final list is the results; on failure the list is unchanged; nothing else changes |
| App.SearchValueChanged | src/App.js:35-38 | typing changes only the search value |
| App.GetDetails | src/App.js:81-92 | a request clears the details first; it then makes one more state change when the composition succeeds and none when it fails, ending with exactly the composition's result (absent on failure); nothing else changes |
| App.FailedInitialLoad | src/App.js:10-25 | a failed start-up load leaves an empty list, loading cleared and nothing to render |
| App.NoStaleDetails | src/App.js:81-92 | the details shown after a request do not depend on what was shown before it, and a failed request leaves the same state as if details had never been requested |

## Left out

- Rendering and JSX (src/App.js:94-157): presentation only.
- The hooks machinery (`useState`, `useMemo`, `useEffect` with empty dependencies): the state is an explicit record and the memo a function of it.
- The `./api` module: its source is not part of this model and it does network I/O; the three per-Pokémon responses are given as a `Gateway` snapshot keyed by the argument each fetch is called with, and the list response as the `response` parameter of `App.LoadPokemon`.
- Async interleaving of handlers and the last-write-wins race between overlapping detail requests: event-loop concurrency; each handler is modelled on its own.
- Url.DropLastChar: strings are modelled as sequences of Unicode code points, not of UTF-16 code units, so `slice(0, -1)` on a string ending outside the Basic Multilingual Plane removes half a character in the source and a whole one here; the URLs and names the API returns are ASCII.
- Text.ToLower: lowers ASCII capitals only, not the full Unicode case mapping of `toLowerCase`.
- JSON shape validation and missing-field crashes other than an absent `species` on a first-child node; responses are otherwise assumed well formed.
- The unhandled promise rejection after a failed load or detail request: there is no observable effect on the state beyond what the model states.

=== FILE: api.dfy ===
/** The shapes of the reference API's responses that the app reads, and a
    snapshot of the remote data standing in for the three per-Pokémon fetch
    functions of the `./api` module, keyed by the argument each is called
    with. A fetch whose key is absent from the snapshot rejects; the app
    treats a network failure and a missing resource alike. The outcome of
    `fetchAllPokemon` is passed to `App.LoadPokemon` directly. */
module Api {
  import opened Wrappers

  /** `{ name, url }`: a list entry, a move, a type or a species. */
  datatype NamedResource = NamedResource(name: string, url: string)

  /** `{ url }`: a reference to a resource without a name. */
  datatype ApiResource = ApiResource(url: string)

  /** `{ move: { name, url } }`: one element of a Pokémon's `moves`. */
  datatype MoveSlot = MoveSlot(move: NamedResource)

  /** `{ type: { name, url } }`: one element of a Pokémon's `types`. The
      field is called `kind` here because `type` is a Dafny keyword. */
  datatype TypeSlot = TypeSlot(kind: NamedResource)

  /** The list resource: `{ results }`. */
  datatype ListResponse = ListResponse(results: seq<NamedResource>)

  /** The details-by-name resource: `{ name, moves, types }`. */
  datatype PokemonResponse = PokemonResponse(name: string, moves: seq<MoveSlot>, types: seq<TypeSlot>)

  /** The species-by-name resource: `{ evolution_chain: { url } }`. */
  datatype SpeciesResponse = SpeciesResponse(evolutionChain: ApiResource)

  /** One node of an evolution chain: `{ species, evolves_to }`. */
  datatype ChainLink = ChainLink(species: Option<NamedResource>, evolvesTo: seq<ChainLink>)

  /** The evolution-chain-by-id resource: `{ chain }`. */
  datatype ChainResponse = ChainResponse(chain: ChainLink)

  /** What the three per-Pokémon resources hold at the moment of a request,
      keyed by the argument each fetch is called with. */
  datatype Gateway = Gateway(
    pokemon: map<string, PokemonResponse>,
    species: map<string, SpeciesResponse>,
    chains: map<string, ChainResponse>)

  function FetchPokemonDetailsByName(gw: Gateway, name: string): (r: Option<PokemonResponse>)
  {
    if name in gw.pokemon then Some(gw.pokemon[name]) else None
  }

  function FetchPokemonSpeciesByName(gw: Gateway, name: string): (r: Option<SpeciesResponse>)
  {
    if name in gw.species then Some(gw.species[name]) else None
  }

  function FetchEvolutionChainById(gw: Gateway, id: string): (r: Option<ChainResponse>)
  {
    if id in gw.chains then Some(gw.chains[id]) else None
  }
}

=== FILE: app_state.dfy ===
/** The component's state `{ pokemon, searchValue, pokemonDetails,
    isLoading }` and the handlers that update it. A handler is modelled by
    the states it leaves behind, one per setter call, in order. */
module App {
  import opened Wrappers
  import opened Api
  import opened ListFilter
  import opened Details

  datatype State = State(
    pokemon: seq<NamedResource>,
    searchValue: string,
    pokemonDetails: Option<PokemonDetails>,
    isLoading: bool)

  /** The `useState` initial values. */
  const Initial: State := State([], "", None, false)

  /** The memoised list the component renders. */
  function PokemonList(s: State): (r: seq<NamedResource>)
    ensures |s.searchValue| == 0 ==> r == s.pokemon
    ensures IsSubsequence(r, s.pokemon)
  {
    VisibleList(s.pokemon, s.searchValue)
  }

  /** The start-up effect: `setIsLoading(true)`, then `setPokemon(results)`
      when `fetchAllPokemon` resolves, then `setIsLoading(false)` in the
      `finally` whether it resolved or rejected (`response` is None). */
  function LoadPokemon(s: State, response: Option<ListResponse>): (trace: seq<State>)
    ensures |trace| == if response.Some? then 3 else 2
    ensures trace[0] == s.(isLoading := true)
    ensures response.Some? ==> trace[1] == trace[0].(pokemon := response.value.results)
    ensures forall k :: 0 <= k < |trace| - 1 ==> trace[k].isLoading
    ensures !trace[|trace| - 1].isLoading
    ensures trace[|trace| - 1].pokemon == if response.Some? then response.value.results else s.pokemon
    ensures forall k :: 0 <= k < |trace| ==>
      trace[k].searchValue == s.searchValue && trace[k].pokemonDetails == s.pokemonDetails
  {
    var loading := s.(isLoading := true);
    match response
    case None => [loading, loading.(isLoading := false)]
    case Some(list) =>
      var loaded := loading.(pokemon := list.results);
      [loading, loaded, loaded.(isLoading := false)]
  }

  /** `onSearchValueChange`: only the search value changes. */
  function SearchValueChanged(s: State, value: string): (t: State)
    ensures t.searchValue == value
    ensures t.pokemon == s.pokemon && t.pokemonDetails == s.pokemonDetails && t.isLoading == s.isLoading
  {
    s.(searchValue := value)
  }

  /** `onGetDetails(name)`: `setPokemonDetails(null)` before anything else,
      then the composed record once `fetchPokemonInfo` resolves; when it
      rejects there is no second setter call. */
  function GetDetails(s: State, gw: Gateway, name: string): (trace: seq<State>)
    ensures |trace| == if FetchPokemonInfo(gw, name).Some? then 2 else 1
    ensures trace[0] == s.(pokemonDetails := None)
    ensures trace[|trace| - 1].pokemonDetails == FetchPokemonInfo(gw, name)
    ensures forall k :: 0 <= k < |trace| ==>
      trace[k].pokemon == s.pokemon && trace[k].searchValue == s.searchValue && trace[k].isLoading == s.isLoading
  {
    var cleared := s.(pokemonDetails := None);
    match FetchPokemonInfo(gw, name)
    case None => [cleared]
    case Some(details) => [cleared, cleared.(pokemonDetails := Some(details))]
  }

  /** A failed start-up load leaves an empty list, loading over, and nothing
      to render. */
  lemma FailedInitialLoad()
    ensures var final := LoadPokemon(Initial, None)[1];
      final.pokemon == [] && !final.isLoading && PokemonList(final) == []
  {
  }

  /** Details never outlive a new request: whatever was shown before, the
      request ends with exactly what the composition produced, and a failed
      request is indistinguishable from never having asked. */
  lemma NoStaleDetails(s: State, shown: Option<PokemonDetails>, gw: Gateway, name: string)
    ensures var trace := GetDetails(s, gw, name);
      FetchPokemonInfo(gw, name).None? ==> trace[|trace| - 1] == s.(pokemonDetails := None)
    ensures var trace, other := GetDetails(s, gw, name), GetDetails(s.(pokemonDetails := shown), gw, name);
      trace[|trace| - 1] == other[|other| - 1]
  {
  }
}

=== FILE: details.dfy ===
/** `fetchPokemonInfo`: details, then species by canonical name, then the
    evolution chain by the id read off the species' URL, merged into one
    record. */
module Details {
  import opened Wrappers
  import opened Api
  import opened Url
  import opened Evolution

  /** The record shown in the details panel. */
  datatype PokemonDetails = PokemonDetails(
    evolutions: seq<string>,
    pokemonName: string,
    moves: seq<string>,
    types: seq<string>)

  /** `moves.map(({ move }) => move.name)`. */
  function MoveNames(moves: seq<MoveSlot>): (names: seq<string>)
    ensures |names| == |moves|
    ensures forall i :: 0 <= i < |moves| ==> names[i] == moves[i].move.name
  {
    if |moves| == 0 then [] else [moves[0].move.name] + MoveNames(moves[1..])
  }

  /** `types.map(({ type }) => type.name)`. */
  function TypeNames(types: seq<TypeSlot>): (names: seq<string>)
    ensures |names| == |types|
    ensures forall i :: 0 <= i < |types| ==> names[i] == types[i].kind.name
  {
    if |types| == 0 then [] else [types[0].kind.name] + TypeNames(types[1..])
  }

  /** `getPokemonEvolutions(id)`: fails when the chain fetch rejects or the
      walk fails. */
  function GetPokemonEvolutions(gw: Gateway, id: string): (r: Option<seq<string>>)
    ensures r.Some? <==> id in gw.chains && SpineNamed(Spine(gw.chains[id].chain))
    ensures r.Some? ==> r.value == RootNames(gw.chains[id].chain, true) + SpeciesNames(Spine(gw.chains[id].chain))
  {
    match FetchEvolutionChainById(gw, id)
    case None => None
    case Some(response) =>
      CompileIsSpineWalk(response.chain, true);
      EvolutionNames(response.chain)
  }

  /** The species the composition fetches: the canonical name's. */
  ghost function SpeciesOf(gw: Gateway, name: string): SpeciesResponse
    requires name in gw.pokemon && gw.pokemon[name].name in gw.species
  {
    gw.species[gw.pokemon[name].name]
  }

  /** The three fetches of `fetchPokemonInfo` chained; any rejection
      rejects the whole composition. It succeeds exactly when the details
      exist, the species of the canonical name exists, the chain with the
      id extracted from the species URL exists, and that chain's spine is
      named. The record then carries the canonical name, the unwrapped
      moves and types, and the chain's left-spine walk. */
  function FetchPokemonInfo(gw: Gateway, name: string): (r: Option<PokemonDetails>)
    ensures r.Some? <==>
      && name in gw.pokemon
      && gw.pokemon[name].name in gw.species
      && EvolutionChainId(SpeciesOf(gw, name).evolutionChain.url) in gw.chains
      && SpineNamed(Spine(gw.chains[EvolutionChainId(SpeciesOf(gw, name).evolutionChain.url)].chain))
    ensures r.Some? ==>
      var p := gw.pokemon[name];
      var chain := gw.chains[EvolutionChainId(SpeciesOf(gw, name).evolutionChain.url)].chain;
      && r.value.pokemonName == p.name
      && r.value.moves == MoveNames(p.moves)
      && r.value.types == TypeNames(p.types)
      && Some(r.value.evolutions) == EvolutionNames(chain)
  {
    var pokemon :- FetchPokemonDetailsByName(gw, name);
    var species :- FetchPokemonSpeciesByName(gw, pokemon.name);
    var evolutionChainId := EvolutionChainId(species.evolutionChain.url);
    var evolutions :- GetPokemonEvolutions(gw, evolutionChainId);
    Some(PokemonDetails(evolutions, pokemon.name, MoveNames(pokemon.moves), TypeNames(pokemon.types)))
  }

  /** The species lookup is keyed by the canonical name: no other species
      entry can change the result. */
  lemma SpeciesKeyedByCanonicalName(gw: Gateway, name: string, key: string, other: SpeciesResponse)
    requires name in gw.pokemon && key != gw.pokemon[name].name
    ensures FetchPokemonInfo(gw.(species := gw.species[key := other]), name) == FetchPokemonInfo(gw, name)
  {
  }

  /** The chain lookup is keyed by the id extracted from the species URL: no
      other chain entry can change the result. */
  lemma ChainKeyedByExtractedId(gw: Gateway, name: string, key: string, other: ChainResponse)
    requires name in gw.pokemon && gw.pokemon[name].name in gw.species
    requires key != EvolutionChainId(SpeciesOf(gw, name).evolutionChain.url)
    ensures FetchPokemonInfo(gw.(chains := gw.chains[key := other]), name) == FetchPokemonInfo(gw, name)
  {
  }

  /** A lookup by national number "25" answers with the canonical name
      "pikachu", which names the record and keys the species fetch. */
  lemma CanonicalNameExample(moves: seq<MoveSlot>, types: seq<TypeSlot>)
    ensures
      var chain := ChainLink(Some(NamedResource("pichu", "")), []);
      var gw := Gateway(
        map["25" := PokemonResponse("pikachu", moves, types)],
        map["pikachu" := SpeciesResponse(ApiResource("https://pokeapi.co/api/v2/evolution-chain/10/"))],
        map["10" := ChainResponse(chain)]);
      FetchPokemonInfo(gw, "25") == Some(PokemonDetails(["pichu"], "pikachu", MoveNames(moves), TypeNames(types)))
  {
    var prefix := "https://pokeapi.co/api/v2/evolution-chain";
    assert prefix + "/" + "10" + "/" == "https://pokeapi.co/api/v2/evolution-chain/10/";
    EvolutionChainIdOfCanonicalUrl(prefix, "10");
  }

  /** Unwrapping `[{move: {name: "tackle"}}]` and `[{type: {name: "normal"}}]`. */
  lemma UnwrapExample(u: string, v: string)
    ensures MoveNames([MoveSlot(NamedResource("tackle", u))]) == ["tackle"]
    ensures TypeNames([TypeSlot(NamedResource("normal", v))]) == ["normal"]
  {
  }
}

=== FILE: evolution.dfy ===
/** `getPokemonEvolutions`: the names along the first-child spine of an
    evolution chain, root first. */
module Evolution {
  import opened Wrappers
  import opened Api

  /** `compileEvolutionNames(node, isFirstEvolution)`, returning the names it
      pushes. The root's name is pushed only when `isFirstEvolution` holds
      and `species` is present; the first child's name is pushed whenever
      there is a child, and the walk descends into that child only when it
      has children of its own. A first child without `species` makes the
      source dereference an absent value, so the walk fails (None). */
  function CompileEvolutionNames(node: ChainLink, isFirstEvolution: bool): Option<seq<string>>
    decreases node
  {
    var head := if node.species.Some? && isFirstEvolution then [node.species.value.name] else [];
    if |node.evolvesTo| == 0 then Some(head)
    else
      var evolution := node.evolvesTo[0];
      if evolution.species.None? then None
      else
        var pushed := head + [evolution.species.value.name];
        if |evolution.evolvesTo| == 0 then Some(pushed)
        else
          match CompileEvolutionNames(evolution, false)
          case None => None
          case Some(rest) => Some(pushed + rest)
  }

  /** The evolution names of a fetched chain: the walk started at the root. */
  function EvolutionNames(chain: ChainLink): (r: Option<seq<string>>)
    ensures r == SpineWalk(chain, true)
  {
    CompileIsSpineWalk(chain, true);
    CompileEvolutionNames(chain, true)
  }

  /** The first-child spine below `node`, top-down: `evolves_to[0]`, then
      its `evolves_to[0]`, and so on to a node without children. */
  function Spine(node: ChainLink): seq<ChainLink>
    decreases node
  {
    if |node.evolvesTo| == 0 then []
    else [node.evolvesTo[0]] + Spine(node.evolvesTo[0])
  }

  /** The spine is the chain of first children: it starts at the root's
      first child, each node is the first child of the one before, and it
      ends at the first node without children. */
  lemma {:induction false} SpineIsFirstChildChain(node: ChainLink)
    ensures var s := Spine(node);
      && (|node.evolvesTo| == 0 <==> |s| == 0)
      && (|s| > 0 ==> s[0] == node.evolvesTo[0])
      && (forall k :: 0 <= k < |s| - 1 ==> |s[k].evolvesTo| > 0 && s[k + 1] == s[k].evolvesTo[0])
      && (|s| > 0 ==> |s[|s| - 1].evolvesTo| == 0)
    decreases node
  {
    if |node.evolvesTo| > 0 {
      var evolution := node.evolvesTo[0];
      SpineIsFirstChildChain(evolution);
      var s, t := Spine(node), Spine(evolution);
      assert s == [evolution] + t;
      assert forall k :: 1 <= k < |s| ==> s[k] == t[k - 1];
    }
  }

  /** Every node on the spine carries a species. */
  predicate SpineNamed(spine: seq<ChainLink>) {
    forall k :: 0 <= k < |spine| ==> spine[k].species.Some?
  }

  function SpeciesNames(spine: seq<ChainLink>): (names: seq<string>)
    requires SpineNamed(spine)
    ensures |names| == |spine|
    ensures forall k :: 0 <= k < |spine| ==> names[k] == spine[k].species.value.name
  {
    if |spine| == 0 then [] else [spine[0].species.value.name] + SpeciesNames(spine[1..])
  }

  /** The name, if any, the walk contributes for the node it starts at. */
  function RootNames(node: ChainLink, isFirstEvolution: bool): seq<string>
  {
    if node.species.Some? && isFirstEvolution then [node.species.value.name] else []
  }

  /** What the walk from `node` should yield, read off the spine. */
  function SpineWalk(node: ChainLink, isFirstEvolution: bool): Option<seq<string>>
  {
    if SpineNamed(Spine(node))
    then Some(RootNames(node, isFirstEvolution) + SpeciesNames(Spine(node)))
    else None
  }

  /** The reference description of the walk: it succeeds exactly when the
      spine is named, and then yields the starting node's own name (when
      counted) followed by the spine's species names. */
  lemma {:induction false} CompileIsSpineWalk(node: ChainLink, isFirstEvolution: bool)
    ensures CompileEvolutionNames(node, isFirstEvolution) == SpineWalk(node, isFirstEvolution)
    decreases node
  {
    if |node.evolvesTo| == 0 {
      CompileLeaf(node, isFirstEvolution);
    } else {
      var evolution := node.evolvesTo[0];
      if evolution.species.None? {
        CompileUnnamedChild(node, isFirstEvolution);
      } else if |evolution.evolvesTo| == 0 {
        CompileLastChild(node, isFirstEvolution);
      } else {
        CompileIsSpineWalk(evolution, false);
        CompileInnerChild(node, isFirstEvolution);
      }
    }
  }

  lemma CompileLeaf(node: ChainLink, isFirstEvolution: bool)
    requires |node.evolvesTo| == 0
    ensures CompileEvolutionNames(node, isFirstEvolution) == SpineWalk(node, isFirstEvolution)
  {
    var head := RootNames(node, isFirstEvolution);
    assert Spine(node) == [];
    assert head + SpeciesNames([]) == head;
  }

  lemma CompileUnnamedChild(node: ChainLink, isFirstEvolution: bool)
    requires |node.evolvesTo| > 0 && node.evolvesTo[0].species.None?
    ensures CompileEvolutionNames(node, isFirstEvolution) == SpineWalk(node, isFirstEvolution)
  {
  }

  lemma CompileLastChild(node: ChainLink, isFirstEvolution: bool)
    requires |node.evolvesTo| > 0 && node.evolvesTo[0].species.Some?
    requires |node.evolvesTo[0].evolvesTo| == 0
    ensures CompileEvolutionNames(node, isFirstEvolution) == SpineWalk(node, isFirstEvolution)
  {
    var evolution := node.evolvesTo[0];
    var name := evolution.species.value.name;
    var head := RootNames(node, isFirstEvolution);
    assert Spine(evolution) == [];
    assert Spine(node) == [evolution];
    assert SpineNamed([evolution]);
    assert SpeciesNames([evolution]) == [name];
    assert CompileEvolutionNames(node, isFirstEvolution) == Some(head + [name]);
  }

  lemma CompileInnerChild(node: ChainLink, isFirstEvolution: bool)
    requires |node.evolvesTo| > 0 && node.evolvesTo[0].species.Some?
    requires |node.evolvesTo[0].evolvesTo| > 0
    requires CompileEvolutionNames(node.evolvesTo[0], false) == SpineWalk(node.evolvesTo[0], false)
    ensures CompileEvolutionNames(node, isFirstEvolution) == SpineWalk(node, isFirstEvolution)
  {
    var evolution := node.evolvesTo[0];
    var rest := Spine(evolution);
    assert Spine(node) == [evolution] + rest;
    SpineCons(evolution, rest);
    if SpineNamed(rest) {
      assert RootNames(evolution, false) == [];
      assert [] + SpeciesNames(rest) == SpeciesNames(rest);
      CompileNamedInnerChild(node, isFirstEvolution, rest);
    } else {
      assert CompileEvolutionNames(evolution, false) == None;
    }
  }

  lemma CompileNamedInnerChild(node: ChainLink, isFirstEvolution: bool, rest: seq<ChainLink>)
    requires |node.evolvesTo| > 0 && node.evolvesTo[0].species.Some?
    requires |node.evolvesTo[0].evolvesTo| > 0
    requires rest == Spine(node.evolvesTo[0]) && SpineNamed(rest)
    requires CompileEvolutionNames(node.evolvesTo[0], false) == Some(SpeciesNames(rest))
    requires SpineNamed(Spine(node))
    requires SpeciesNames(Spine(node)) == [node.evolvesTo[0].species.value.name] + SpeciesNames(rest)
    ensures CompileEvolutionNames(node, isFirstEvolution) == SpineWalk(node, isFirstEvolution)
  {
    var head, name, names := RootNames(node, isFirstEvolution), node.evolvesTo[0].species.value.name, SpeciesNames(rest);
    CompileUnfoldsInnerChild(node, isFirstEvolution, names);
    assert head + [name] + names == head + ([name] + names);
  }

  /** One step of the walk through a named first child that has children. */
  lemma CompileUnfoldsInnerChild(node: ChainLink, isFirstEvolution: bool, names: seq<string>)
    requires |node.evolvesTo| > 0 && node.evolvesTo[0].species.Some?
    requires |node.evolvesTo[0].evolvesTo| > 0
    requires CompileEvolutionNames(node.evolvesTo[0], false) == Some(names)
    ensures CompileEvolutionNames(node, isFirstEvolution) ==
      Some(RootNames(node, isFirstEvolution) + [node.evolvesTo[0].species.value.name] + names)
  {
  }

  /** Naming and listing a spine one node at a time. */
  lemma SpineCons(first: ChainLink, rest: seq<ChainLink>)
    ensures SpineNamed([first] + rest) <==> first.species.Some? && SpineNamed(rest)
    ensures SpineNamed([first] + rest) ==>
      SpeciesNames([first] + rest) == [first.species.value.name] + SpeciesNames(rest)
  {
    var spine := [first] + rest;
    assert spine[0] == first;
    assert spine[1..] == rest;
    assert forall k :: 1 <= k < |spine| ==> spine[k] == rest[k - 1];
  }

  /** The properties of the evolution list: it exists exactly when the
      spine is named; it opens with the root species when there is one;
      its length is that opening name plus the spine's depth; and entry k
      after the opening is the species of the k-th spine node, each spine
      node being the first child of the one before. */
  lemma EvolutionNamesFollowSpine(chain: ChainLink)
    ensures var r := EvolutionNames(chain);
      var offset := if chain.species.Some? then 1 else 0;
      var spine := Spine(chain);
      && (r.Some? <==> SpineNamed(spine))
      && (r.Some? ==> |r.value| == offset + |spine|)
      && (r.Some? && chain.species.Some? ==> r.value[0] == chain.species.value.name)
      && (r.Some? ==> forall k :: 0 <= k < |spine| ==> r.value[offset + k] == spine[k].species.value.name)
  {
    CompileIsSpineWalk(chain, true);
  }

  /** A root without children yields just its own name. */
  lemma TerminalChain(chain: ChainLink)
    requires |chain.evolvesTo| == 0
    ensures chain.species.Some? ==> EvolutionNames(chain) == Some([chain.species.value.name])
    ensures chain.species.None? ==> EvolutionNames(chain) == Some([])
  {
  }

  /** Keeps only each node's first child. */
  function Prune(node: ChainLink): (p: ChainLink)
    ensures p.species == node.species
    ensures |p.evolvesTo| == if |node.evolvesTo| == 0 then 0 else 1
    decreases node
  {
    if |node.evolvesTo| == 0 then ChainLink(node.species, [])
    else ChainLink(node.species, [Prune(node.evolvesTo[0])])
  }

  /** Branches other than the first are never visited: discarding them
      changes nothing. */
  lemma {:induction false} PruneKeepsNames(node: ChainLink, isFirstEvolution: bool)
    ensures CompileEvolutionNames(Prune(node), isFirstEvolution) == CompileEvolutionNames(node, isFirstEvolution)
    decreases node
  {
    if |node.evolvesTo| > 0 {
      var evolution := node.evolvesTo[0];
      assert Prune(node).evolvesTo[0] == Prune(evolution);
      PruneKeepsNames(evolution, false);
    }
  }

  /** A chain A -> [B -> [C], D]: the decoy branch D is not listed. */
  lemma DecoyBranchIgnored()
    ensures
      var c := ChainLink(Some(NamedResource("C", "")), []);
      var b := ChainLink(Some(NamedResource("B", "")), [c]);
      var d := ChainLink(Some(NamedResource("D", "")), []);
      EvolutionNames(ChainLink(Some(NamedResource("A", "")), [b, d])) == Some(["A", "B", "C"])
  {
    var c := ChainLink(Some(NamedResource("C", "")), []);
    var b := ChainLink(Some(NamedResource("B", "")), [c]);
    assert b.evolvesTo[0] == c;
    assert CompileEvolutionNames(b, false) == Some([] + ["C"]);
    assert [] + ["C"] == ["C"];
    assert ["A"] + ["B"] + ["C"] == ["A", "B", "C"];
  }
}

=== FILE: list_filter.dfy ===
/** The memoised visible list: the cached list narrowed by the search box. */
module ListFilter {
  import opened Text
  import opened Api

  /** `a` is `b` with some elements left out, the rest in their order. */
  predicate IsSubsequence<T(==)>(a: seq<T>, b: seq<T>)
    decreases |b|
  {
    if |a| == 0 then true
    else if |b| == 0 then false
    else if a[0] == b[0] then IsSubsequence(a[1..], b[1..])
    else IsSubsequence(a, b[1..])
  }

  /** `list.filter(({ name }) => name.includes(needle))`. */
  function KeepMatching(list: seq<NamedResource>, needle: string): (r: seq<NamedResource>)
    ensures IsSubsequence(r, list)
    ensures forall e :: e in r ==> IsSubstring(needle, e.name)
    ensures forall i :: 0 <= i < |list| ==> (list[i] in r <==> IsSubstring(needle, list[i].name))
  {
    if |list| == 0 then []
    else
      var rest := KeepMatching(list[1..], needle);
      assert forall i :: 1 <= i < |list| ==> list[i] == list[1..][i - 1];
      if Includes(list[0].name, needle) then
        assert ([list[0]] + rest)[1..] == rest;
        [list[0]] + rest
      else
        assert |rest| > 0 ==> rest[0] in rest && rest[0] != list[0];
        rest
  }

  /** The filter keeps every copy of a matching entry and no copy of any
      other: multiplicities are those of the input, or zero. */
  lemma {:induction false} KeepMatchingCounts(list: seq<NamedResource>, needle: string)
    ensures var r := KeepMatching(list, needle);
      forall e :: multiset(r)[e] == if IsSubstring(needle, e.name) then multiset(list)[e] else 0
    decreases |list|
  {
    if |list| > 0 {
      KeepMatchingCounts(list[1..], needle);
      assert list == [list[0]] + list[1..];
      CountsStep(list[0], list[1..], KeepMatching(list[1..], needle), needle, IsSubstring(needle, list[0].name));
    }
  }

  /** The multiplicities the filter keeps, one head entry at a time. */
  lemma CountsStep(head: NamedResource, tail: seq<NamedResource>, rest: seq<NamedResource>, needle: string, keep: bool)
    requires keep <==> IsSubstring(needle, head.name)
    requires forall e :: multiset(rest)[e] == if IsSubstring(needle, e.name) then multiset(tail)[e] else 0
    ensures var r := if keep then [head] + rest else rest;
      forall e :: multiset(r)[e] == if IsSubstring(needle, e.name) then multiset([head] + tail)[e] else 0
  {
    assert multiset([head] + tail) == multiset{head} + multiset(tail);
    assert multiset([head] + rest) == multiset{head} + multiset(rest);
  }

  lemma {:induction false} SubsequenceReflexive<T>(a: seq<T>)
    ensures IsSubsequence(a, a)
    decreases |a|
  {
    if |a| > 0 {
      SubsequenceReflexive(a[1..]);
    }
  }

  /** Every element of a subsequence is an element of the sequence. */
  lemma {:induction false} SubsequenceMembers<T>(a: seq<T>, b: seq<T>)
    requires IsSubsequence(a, b)
    ensures forall x :: x in a ==> x in b
    decreases |b|
  {
    if |a| > 0 {
      if a[0] == b[0] {
        SubsequenceMembers(a[1..], b[1..]);
        assert a == [a[0]] + a[1..];
      } else {
        SubsequenceMembers(a, b[1..]);
      }
    }
  }

  /** The list the component renders: the cached list itself when the
      search value is empty or there is nothing cached, otherwise the
      entries whose name contains the lower-cased search value. Entry names
      are compared as they are, without case folding. */
  function VisibleList(pokemon: seq<NamedResource>, searchValue: string): (r: seq<NamedResource>)
    ensures |searchValue| == 0 ==> r == pokemon
    ensures IsSubsequence(r, pokemon)
    ensures forall e :: e in r ==> e in pokemon
    ensures |searchValue| > 0 ==>
      forall i :: 0 <= i < |pokemon| ==>
        (pokemon[i] in r <==> IsSubstring(ToLower(searchValue), pokemon[i].name))
    ensures |searchValue| > 0 ==>
      forall e :: multiset(r)[e] == if IsSubstring(ToLower(searchValue), e.name) then multiset(pokemon)[e] else 0
  {
    if |searchValue| > 0 && |pokemon| > 0 then
      var r := KeepMatching(pokemon, ToLower(searchValue));
      SubsequenceMembers(r, pokemon);
      KeepMatchingCounts(pokemon, ToLower(searchValue));
      r
    else
      SubsequenceReflexive(pokemon);
      pokemon
  }

  /** Filtering works entry by entry: the result for a concatenation is
      the concatenation of the results, and a single entry is kept exactly
      when its name contains the needle. */
  lemma {:induction false} KeepMatchingConcat(a: seq<NamedResource>, b: seq<NamedResource>, needle: string)
    ensures KeepMatching(a + b, needle) == KeepMatching(a, needle) + KeepMatching(b, needle)
    ensures forall e :: KeepMatching([e], needle) == (if IsSubstring(needle, e.name) then [e] else [])
    decreases |a|
  {
    if |a| == 0 {
      assert a + b == b;
    } else {
      assert (a + b)[0] == a[0];
      assert (a + b)[1..] == a[1..] + b;
      KeepMatchingConcat(a[1..], b, needle);
    }
    forall e
      ensures KeepMatching([e], needle) == (if IsSubstring(needle, e.name) then [e] else [])
    {
      KeepMatchingSingle(e, needle);
    }
  }

  lemma KeepMatchingSingle(e: NamedResource, needle: string)
    ensures KeepMatching([e], needle) == (if IsSubstring(needle, e.name) then [e] else [])
  {
    assert [e][1..] == [];
  }

  /** The search value is lower-cased but the names are not: "PIKA" finds
      "pikachu", while "pika" does not find "Pikachu". */
  lemma CaseFoldingExamples(url: string)
    ensures VisibleList([NamedResource("pikachu", url)], "PIKA") == [NamedResource("pikachu", url)]
    ensures VisibleList([NamedResource("Pikachu", url)], "pika") == []
  {
    var lowered := ToLower("PIKA");
    assert lowered == "pika";
    assert OccursAt("pika", "pikachu", 0);
    assert ToLower("pika") == "pika";
    assert 'p' !in "Pikachu";
    AbsentFirstCharacter("pika", "Pikachu");
  }
}

=== FILE: text.dfy ===
/** String operations the filter relies on: `String.prototype.toLowerCase`
    (restricted to ASCII letters) and `String.prototype.includes`. */
module Text {

  predicate IsUpperAscii(c: char) {
    'A' <= c <= 'Z'
  }

  /** Lower-cases an ASCII capital; every other character is kept. */
  function LowerChar(c: char): (d: char)
    ensures !IsUpperAscii(d)
    ensures !IsUpperAscii(c) ==> d == c
  {
    if IsUpperAscii(c) then (c as int + 32) as char else c
  }

  /** `s.toLowerCase()` on ASCII letters. */
  function ToLower(s: string): (r: string)
    ensures |r| == |s|
    ensures IsLower(r)
    ensures IsLower(s) ==> r == s
  {
    seq(|s|, i requires 0 <= i < |s| => LowerChar(s[i]))
  }

  predicate IsLower(s: string) {
    forall i :: 0 <= i < |s| ==> !IsUpperAscii(s[i])
  }

  /** Lower-casing twice is lower-casing once. */
  lemma ToLowerIdempotent(s: string)
    ensures ToLower(ToLower(s)) == ToLower(s)
  {
  }

  /** Two characters are the same letter up to ASCII case: equal, or an
      ASCII capital and the small letter 32 code points after it. */
  predicate SameIgnoringAsciiCase(c: char, d: char) {
    || c == d
    || (IsUpperAscii(c) && d as int == c as int + 32)
    || (IsUpperAscii(d) && c as int == d as int + 32)
  }

  /** Lower-casing identifies exactly the strings that differ only in the
      case of ASCII letters. */
  lemma ToLowerIgnoresAsciiCase(s: string, t: string)
    ensures ToLower(s) == ToLower(t) <==>
      |s| == |t| && forall i :: 0 <= i < |s| ==> SameIgnoringAsciiCase(s[i], t[i])
  {
    if ToLower(s) == ToLower(t) {
      forall i | 0 <= i < |s|
        ensures SameIgnoringAsciiCase(s[i], t[i])
      {
        assert ToLower(s)[i] == ToLower(t)[i];
      }
    }
    if |s| == |t| && forall i :: 0 <= i < |s| ==> SameIgnoringAsciiCase(s[i], t[i]) {
      forall i | 0 <= i < |s|
        ensures ToLower(s)[i] == ToLower(t)[i]
      {
        assert SameIgnoringAsciiCase(s[i], t[i]);
      }
    }
  }

  /** `needle` occurs in `hay` starting at index `i`. */
  predicate OccursAt(needle: string, hay: string, i: int) {
    0 <= i && i + |needle| <= |hay| && hay[i..i + |needle|] == needle
  }

  /** The reference meaning of "is a substring of". */
  ghost predicate IsSubstring(needle: string, hay: string) {
    exists i :: OccursAt(needle, hay, i)
  }

  /** `hay.includes(needle)`: tries every start position from the left. */
  function Includes(hay: string, needle: string): (b: bool)
    ensures b <==> IsSubstring(needle, hay)
    decreases |hay|
  {
    if |needle| > |hay| then
      assert forall i :: !OccursAt(needle, hay, i);
      false
    else if hay[..|needle|] == needle then
      assert OccursAt(needle, hay, 0);
      true
    else
      var b := Includes(hay[1..], needle);
      ShiftOccurrence(needle, hay);
      b
  }

  /** When `needle` is not at the front of `hay`, its occurrences in `hay`
      are those in `hay[1..]` moved one place to the right. */
  lemma ShiftOccurrence(needle: string, hay: string)
    requires 0 < |needle| <= |hay|
    requires !OccursAt(needle, hay, 0)
    ensures IsSubstring(needle, hay) <==> IsSubstring(needle, hay[1..])
  {
    var tail := hay[1..];
    if IsSubstring(needle, hay) {
      var i :| OccursAt(needle, hay, i);
      assert i > 0;
      assert tail[i - 1..i - 1 + |needle|] == hay[i..i + |needle|];
      assert OccursAt(needle, tail, i - 1);
    }
    if IsSubstring(needle, tail) {
      var j :| OccursAt(needle, tail, j);
      assert hay[j + 1..j + 1 + |needle|] == tail[j..j + |needle|];
      assert OccursAt(needle, hay, j + 1);
    }
  }

  /** A needle whose first character is nowhere in `hay` does not occur. */
  lemma AbsentFirstCharacter(needle: string, hay: string)
    requires |needle| > 0 && needle[0] !in hay
    ensures !IsSubstring(needle, hay)
  {
    OccurrenceStartsWithFirst(needle, hay);
  }

  lemma OccurrenceStartsWithFirst(needle: string, hay: string)
    requires |needle| > 0
    ensures forall i :: OccursAt(needle, hay, i) ==> hay[i] == needle[0]
  {
    forall i | OccursAt(needle, hay, i)
      ensures hay[i] == needle[0]
    {
      assert hay[i..i + |needle|][0] == hay[i];
    }
  }
}

=== FILE: url.dfy ===
/** `slice(0, -1)`, `split(sep)` and `join(sep)` on strings, and the
    evolution-chain id the app reads off a species' `evolution_chain.url`. */
module Url {

  /** `s.slice(0, -1)`: every character but the last; "" stays "". */
  function DropLastChar(s: string): (r: string)
    ensures |s| == 0 ==> r == s
    ensures |s| > 0 ==> |r| == |s| - 1 && r + [s[|s| - 1]] == s
  {
    if |s| == 0 then s else s[..|s| - 1]
  }

  /** `s.split(sep)` for a one-character separator: the maximal runs
      between separators, left to right, empty runs included. */
  function Split(s: string, sep: char): (parts: seq<string>)
    ensures |parts| >= 1
    ensures forall k :: 0 <= k < |parts| ==> sep !in parts[k]
  {
    if |s| == 0 then [""]
    else
      var rest := Split(s[1..], sep);
      if s[0] == sep then [""] + rest
      else [[s[0]] + rest[0]] + rest[1..]
  }

  /** `parts.join(sep)`. */
  function Join(parts: seq<string>, sep: char): string
  {
    if |parts| == 0 then ""
    else if |parts| == 1 then parts[0]
    else parts[0] + [sep] + Join(parts[1..], sep)
  }

  function Last<T>(xs: seq<T>): T
    requires |xs| > 0
  {
    xs[|xs| - 1]
  }

  /** Index of the last `sep` in `s`, or -1 when there is none. */
  function LastIndexOf(s: string, sep: char): (i: int)
    ensures -1 <= i < |s|
    ensures i >= 0 ==> s[i] == sep
    ensures forall j :: i < j < |s| ==> s[j] != sep
  {
    if |s| == 0 then -1
    else if s[|s| - 1] == sep then |s| - 1
    else LastIndexOf(s[..|s| - 1], sep)
  }

  /** Splitting then joining gives back the string. */
  lemma {:induction false} JoinSplit(s: string, sep: char)
    ensures Join(Split(s, sep), sep) == s
    decreases |s|
  {
    if |s| > 0 {
      var rest := Split(s[1..], sep);
      JoinSplit(s[1..], sep);
      if s[0] == sep {
        assert Split(s, sep) == [""] + rest;
        assert ([""] + rest)[1..] == rest;
      } else {
        if |rest| == 1 {
          assert Join(Split(s, sep), sep) == [s[0]] + rest[0];
        } else {
          var parts := Split(s, sep);
          assert parts[1..] == rest[1..];
          assert Join(rest, sep) == rest[0] + [sep] + Join(rest[1..], sep);
        }
        assert s == [s[0]] + s[1..];
      }
    }
  }

  /** A separator-free prefix is glued onto the first piece. */
  lemma {:induction false} SplitPrefix(a: string, t: string, sep: char)
    requires sep !in a
    ensures Split(a + t, sep) == [a + Split(t, sep)[0]] + Split(t, sep)[1..]
    decreases |a|
  {
    if |a| > 0 {
      assert (a + t)[1..] == a[1..] + t;
      assert (a + t)[0] == a[0];
      SplitPrefix(a[1..], t, sep);
      assert [a[0]] + (a[1..] + Split(t, sep)[0]) == a + Split(t, sep)[0];
    } else {
      assert a + t == t;
      var parts := Split(t, sep);
      assert a + parts[0] == parts[0];
      assert parts == [parts[0]] + parts[1..];
    }
  }

  /** A string without separators splits into itself alone. */
  lemma SplitSeparatorFree(s: string, sep: char)
    requires sep !in s
    ensures Split(s, sep) == [s]
  {
    SplitPrefix(s, "", sep);
    assert s + "" == s;
  }

  /** Splitting distributes over a separator. */
  lemma {:induction false} SplitAtSeparator(a: string, b: string, sep: char)
    ensures Split(a + [sep] + b, sep) == Split(a, sep) + Split(b, sep)
    decreases |a|
  {
    var s := a + [sep] + b;
    if |a| == 0 {
      assert s == [sep] + b;
      assert s[1..] == b;
    } else {
      assert s[0] == a[0];
      assert s[1..] == a[1..] + [sep] + b;
      SplitAtSeparator(a[1..], b, sep);
    }
  }

  /** Joining separator-free pieces then splitting gives back the pieces. */
  lemma {:induction false} SplitJoin(parts: seq<string>, sep: char)
    requires |parts| >= 1
    requires forall k :: 0 <= k < |parts| ==> sep !in parts[k]
    ensures Split(Join(parts, sep), sep) == parts
    decreases |parts|
  {
    if |parts| == 1 {
      SplitSeparatorFree(parts[0], sep);
    } else {
      SplitJoin(parts[1..], sep);
      SplitAtSeparator(parts[0], Join(parts[1..], sep), sep);
      SplitSeparatorFree(parts[0], sep);
      assert parts == [parts[0]] + parts[1..];
    }
  }

  /** The last piece of a split is the text after the last separator. */
  lemma LastPieceAfterLastSeparator(s: string, sep: char)
    ensures Last(Split(s, sep)) == s[LastIndexOf(s, sep) + 1..]
  {
    var i := LastIndexOf(s, sep);
    if i < 0 {
      assert sep !in s;
      SplitSeparatorFree(s, sep);
    } else {
      var before, after := s[..i], s[i + 1..];
      assert s == before + [sep] + after;
      assert sep !in after;
      SplitAtSeparator(before, after, sep);
      SplitSeparatorFree(after, sep);
      var parts := Split(s, sep);
      assert parts == Split(before, sep) + [after];
      assert Last(parts) == after;
    }
  }

  /** The chain id: the last piece of the URL without its final character,
      split on '/'. The final character is dropped whatever it is. */
  function EvolutionChainId(url: string): (id: string)
    ensures '/' !in id
  {
    Last(Split(DropLastChar(url), '/'))
  }

  /** The id is whatever follows the last '/' once the final character of
      the URL is gone; it is a suffix of the URL. */
  lemma EvolutionChainIdIsTail(url: string)
    ensures var t := DropLastChar(url);
      EvolutionChainId(url) == t[LastIndexOf(t, '/') + 1..]
    ensures |url| > 0 ==>
      var id := EvolutionChainId(url);
      |id| < |url| && url[|url| - 1 - |id|..|url| - 1] == id
  {
    var t := DropLastChar(url);
    LastPieceAfterLastSeparator(t, '/');
    if |url| > 0 {
      var n := |url|;
      var k := LastIndexOf(t, '/') + 1;
      assert t == url[..n - 1];
      var id := t[k..];
      assert |id| == n - 1 - k;
      assert url[n - 1 - |id|..n - 1] == id;
    }
  }

  /** A URL of the form `prefix/id/` with a slash-free id yields `id`. */
  lemma EvolutionChainIdOfCanonicalUrl(prefix: string, id: string)
    requires '/' !in id
    ensures EvolutionChainId(prefix + "/" + id + "/") == id
  {
    var url := prefix + "/" + id + "/";
    assert DropLastChar(url) == prefix + ['/'] + id;
    SplitAtSeparator(prefix, id, '/');
    SplitSeparatorFree(id, '/');
  }

  /** The upstream URL shape gives the numeric id. */
  lemma EvolutionChainIdExample()
    ensures EvolutionChainId("https://pokeapi.co/api/v2/evolution-chain/5/") == "5"
  {
    var prefix := "https://pokeapi.co/api/v2/evolution-chain";
    assert prefix + "/" + "5" + "/" == "https://pokeapi.co/api/v2/evolution-chain/5/";
    EvolutionChainIdOfCanonicalUrl(prefix, "5");
  }

  /** Without the trailing slash the last character of the id is lost. */
  lemma EvolutionChainIdWithoutTrailingSlash()
    ensures EvolutionChainId("https://pokeapi.co/api/v2/evolution-chain/12") == "1"
  {
    var url := "https://pokeapi.co/api/v2/evolution-chain/12";
    assert DropLastChar(url) == "https://pokeapi.co/api/v2/evolution-chain" + ['/'] + "1";
    SplitAtSeparator("https://pokeapi.co/api/v2/evolution-chain", "1", '/');
    SplitSeparatorFree("1", '/');
  }
}

=== FILE: wrappers.dfy ===
/** Optional values, used for JSON fields that may be absent and for
    operations whose promise rejects. */
module Wrappers {

  datatype Option<+T> = None | Some(value: T) {

    /** Holds for None; lets `:-` stop at the first absent value. */
    predicate IsFailure() {
      None?
    }

    /** Carries an absence over to an Option of another value type. */
    function PropagateFailure<U>(): Option<U>
      requires None?
    {
      None
    }

    /** The value held by Some. */
    function Extract(): T
      requires Some?
    {
      value
    }
  }
}
